=== FILE: README.md ===
# Fillist film store, modelled in Dafny

Fillist keeps a personal film list in an SQLite file. The class
`myDataBase` owns four tables, all keyed by an `INTEGER PRIMARY KEY
AUTOINCREMENT` id:

- `status`: watch states ("В планах", "Просмотрен", "В процессе");
- `rating`: the values 1..5;
- `genre`: genre names;
- `filmlist`: one row per film, naming its genre and status by id.

The model keeps this data as four `Table`s. Each `Table` is a map from id to row plus the table's
sequence counter. Each writing method is a pure function from a store to a
`Step`: the new store and what the Python method returned (`Returned(code)`)
or that it raised (`Raised`). The read methods are functions from a store to
a set of result views.

The modules follow the program's structure:

- `Text` covers the string handling the methods apply to their arguments: Python's
  `strip()` and `lower()`, and SQLite's `LOWER()`. The two lowercasings
  differ. SQLite's built-in `LOWER()` folds ASCII only. Python's also folds
  Cyrillic, which is the script the seeded statuses and genres are written in.
- `Tables` models autoincrement tables. Ids start at 1, an insert takes the
  counter, and a deleted id is never handed out again. A lookup takes "the
  first row", which is the least matching id.
- `FilmStore` holds the film, store and request datatypes, the store invariant,
  and `add_film_to_bd`, `update_data` and `del_film`.
- `FilmQueries` holds `get_all_films`, `find_film_by_name`, `find_film_by_id`
  and `find_films_with_filters`.
- `FilmSeed` holds the seeding half of `db_init` and the store a fresh file holds.
- `FilmLemmas` holds properties that relate several calls.
- `FilmSession` covers any sequence of writes and reopens starting from a
  fresh file.
- `FilmExamples` holds worked cases on the seeded store.

Behaviour of the code that the model keeps, and that a reader of the
method names might not expect:

- The "any status" sentinel of `find_films_with_filters` is "Все"
  (FilmQueries.AnyStatus); "All" is an ordinary status name.
- Ratings are text. No range check is made, and an empty rating becomes
  "0".
- The duplicate check of `add_film_to_bd` compares name, genre and status
  under SQLite's `LOWER()`, which folds A-Z only, and so do the genre and
  status lookups; `find_film_by_name` and the status filter of
  `find_films_with_filters` compare exactly. A name differing from a stored
  film only in ASCII case is a duplicate; a genre or status typed in a
  different Cyrillic case is not found. For genres this never matters, because the store lower-cases them
  in Python first. For statuses it means "в планах" is refused.
- `add_film_to_bd` inserts a missing genre before it checks the status.
  When the status is then unknown, it returns 0, and the leaving `with`
  block commits, so the orphan genre row stays.
- A rating of white space only passes the duplicate check as "" but is
  stored as "0". Such a film is therefore never a duplicate, and adding it
  twice inserts two equal rows (FilmLemmas.AddTwiceBlankRating).
- `add_film_to_bd` with a genre that is empty after stripping, a known
  status and no duplicate match raises `UnboundLocalError`: `genre_id` is
  never bound. Nothing is written. When a film already points at an empty
  genre row (which `update_data` can create), the same add is a duplicate
  and returns 0 instead (FilmExamples.BlankGenreDuplicateNotRaised).
- `update_data` resolves the genre even when it is empty, so it inserts an
  empty genre row when none exists. It never changes a film's name. It
  returns 1 whether or not a row has the id.
- Every `myDataBase` object runs `db_init` when it is built. A file whose
  films were all deleted therefore gets the three seed films back on the
  next start, at fresh ids.

## Model

| member | source | states |
|---|---|---|
| Text.Trim | scripts/myDataBase.py:257-261 | `strip()`: the result is a slice of the argument with only white space cut from either end, it neither starts nor ends with white space, and it is empty exactly when the argument is blank |
| Text.TrimStartBlank | scripts/myDataBase.py:257-261 | everything the left half of `strip()` cuts off is white space |
| Text.TrimIdempotent | scripts/myDataBase.py:257-261 | stripping an already stripped argument changes nothing |
| Text.TrimNeverSingleSpace | scripts/myDataBase.py:262 | a stripped name is never " ", so the second half of the blank-name guard can never fire |
| Text.StripOfBlank | scripts/myDataBase.py:257-261 | whatever `strip()` leaves, by its definition as a slice between blank ends, is empty exactly when the argument is blank |
| Text.StripOfUnique | scripts/myDataBase.py:257-261 | the definition of what `strip()` leaves allows exactly one result for each argument |
| Text.StripOfIsTrim | scripts/myDataBase.py:257-261 | `Trim` computes that one result: a string is what `strip()` leaves of the argument exactly when it equals `Trim` of it |
| Text.SqlLower | scripts/myDataBase.py:275-277 | SQLite `LOWER()` keeps the length, maps each A-Z letter to its small form (32 code points up), changes no other character, and leaves no A-Z letter |
| Text.SqlLowerMatchIsAsciiCaseVariant | scripts/myDataBase.py:275-277 | two texts are equal under `LOWER()` exactly when they have the same length and differ at most in the case of ASCII letters |
| Text.PyLower | scripts/myDataBase.py:258 | Python `lower()` keeps the length, moves A-Z and А-Я up by 32 code points and Ѐ-Џ up by 80, keeps every other character, and leaves no ASCII or basic-Cyrillic capital |
| Text.PyLowerIdempotent | scripts/myDataBase.py:258 | lower-casing a lower-cased genre changes nothing |
| Text.SqlLowerOfPyLower | scripts/myDataBase.py:284-286 | `LOWER()` changes nothing in a genre Python already lower-cased |
| Text.SqlLowerMatchOfCanonical | scripts/myDataBase.py:286-300 | between two Python-lower-cased names, the `LOWER(name) = LOWER(?)` match is plain equality |
| Tables.Table.Insert | scripts/myDataBase.py:297-298 | an insert puts the row at the counter's id (the `lastrowid`), keeps every other row, advances the counter, and keeps ids below the counter |
| Tables.Table.InsertAll | scripts/myDataBase.py:121-124 | a run of inserts advances the counter once per row |
| Tables.Table.InsertAllRows | scripts/myDataBase.py:121-124 | after a run of inserts the i-th row sits at the old counter plus i, earlier rows stay, and nothing else appears |
| Tables.Table.InsertFirstRows | scripts/myDataBase.py:121-124 | the same for the first n rows of the run, by induction on n |
| Tables.EmptyTable | scripts/myDataBase.py:92-96 | a new table has no rows and its counter starts at 1 |
| Tables.Least | scripts/myDataBase.py:299-300 | `films[0]`, the first row of the scan, is the least matching id |
| FilmStore.NormaliseRating | scripts/myDataBase.py:260 | an empty rating becomes "0"; any other becomes what `strip()` leaves of it (`StripOf`), which is "" exactly when the rating is blank |
| FilmStore.Normalise | scripts/myDataBase.py:257-261 | the name, status and description become what `strip()` leaves of them, and the genre the lower case of its stripped form; an empty rating becomes "0" and any other is stripped. So name, genre, status and description are empty exactly when they were blank, the rating is empty exactly when it was non-empty white space, the genre is lower case and the name is never " " |
| FilmStore.StoredRating | scripts/myDataBase.py:318-320 | the rating written to `filmlist` is never empty: an empty normalised rating is written as "0", any other as it is |
| FilmStore.Lookup | scripts/myDataBase.py:302-316 | the status (or genre) lookup finds nothing exactly when no row matches under `LOWER()`; otherwise it gives a matching id no greater than any other match |
| FilmStore.ResolveGenre | scripts/myDataBase.py:284-300 | the genre id names a row matching the genre under `LOWER()`; an existing match is reused and the store is untouched; otherwise the genre is inserted at the counter's id |
| FilmStore.AddRequest | scripts/myDataBase.py:262-328 | the reply is 1 exactly when the name is usable, no duplicate exists, the genre is non-empty and the status is known; it raises exactly when the genre alone is empty; otherwise it is 0. A blank name, a duplicate or a raise changes nothing. Only an accepted add writes a film row, a single one, at the counter's id, with the name, genre, status, stored rating and description asked for. The genre table changes only by inserting a new genre |
| FilmStore.AddFilm | scripts/myDataBase.py:256-263 | a blank name returns 0 and changes nothing; an accepted add stores the stripped name at the counter's id; statuses never change |
| FilmStore.Rewrite | scripts/myDataBase.py:406-408 | the `UPDATE` changes genre, status, rating and description of the row with that id only, never the name, and adds or removes no row |
| FilmStore.UpdateRequest | scripts/myDataBase.py:365-409 | the reply is 1 exactly when the name is usable and the status is known, whether or not a row has the id, else 0; no row is added or removed, no name changes, and rows with other ids stay; on 1 the row with the id carries the requested genre, status, stored rating and description; at most the requested genre is added |
| FilmStore.UpdateFilm | scripts/myDataBase.py:358-366 | a blank name returns 0 and changes nothing; every film keeps its id and name; statuses never change |
| FilmStore.DeleteFilm | scripts/myDataBase.py:204-208 | the row with the id goes, every other row and table stays, the counter does not move back, and the reply is 0 |
| FilmQueries.AllFilms | scripts/myDataBase.py:180-202 | exactly one view per film whose genre and status both resolve through the join, carrying the genre and status names |
| FilmQueries.FindFilmsByName | scripts/myDataBase.py:149-175 | exactly the views of `get_all_films` whose name equals the argument, case included |
| FilmQueries.FindFilmById | scripts/myDataBase.py:330-356 | `None` exactly when no joined film has the id, otherwise the one view of `get_all_films` with that id |
| FilmQueries.FindFilmsWithFilters | scripts/myDataBase.py:210-254 | across the four branches, a view is returned exactly when it is in `get_all_films`, its status is the filter unless that is "Все", and its rating is the filter unless that is "" |
| FilmQueries.NoFiltersIsAllFilms | scripts/myDataBase.py:228-233 | with status "Все" and rating "" the filtered search is `get_all_films` |
| FilmQueries.BothFiltersIntersect | scripts/myDataBase.py:214-240 | with both filters set, the result is the status-only result intersected with the rating-only result |
| FilmQueries.AllFilmsCoversStore | scripts/myDataBase.py:184-188 | when every film's genre and status resolve, `get_all_films` shows each film id exactly once |
| FilmSeed.NewStore | scripts/myDataBase.py:92-118 | a new file holds four empty tables and satisfies the store invariant |
| FilmSeed.SeedTable | scripts/myDataBase.py:121-124 | a table with rows is untouched; an empty one gets every seed in order from its counter, and nothing else |
| FilmSeed.Init | scripts/myDataBase.py:120-140 | each of the four tables is seeded with its own seeds in that way, and none is empty afterwards |
| FilmSeed.InitIdempotent | scripts/myDataBase.py:120-140 | opening the file a second time writes nothing |
| FilmSeed.InitReseedsEmptiedFilms | scripts/myDataBase.py:136-140 | a file whose films were all deleted gets the three seed films back on the next open, at fresh ids after the old counter |
| FilmSeed.ReseededFilmsFit | scripts/myDataBase.py:65-69 | every film reseeded into an empty film table names genre and status ids 1 to 3 and carries a rating |
| FilmSeed.ReopenKeepsInvariant | scripts/myDataBase.py:120-140 | opening a file that holds genres and statuses 1 to 3 leaves those tables alone and keeps the store invariant, including when it reseeds an emptied film table |
| FilmSeed.SeededRows | scripts/myDataBase.py:65-140 | a fresh file after `db_init` holds exactly the listed statuses, ratings, genres and films at ids 1.. |
| FilmSeed.SeedGenreCanonical | scripts/myDataBase.py:75-79 | the seed genres are already lower case |
| FilmSeed.SeededInvariant | scripts/myDataBase.py:65-86 | the seeded films' genre and status ids resolve, the genres are lower case, and no rating is empty |
| FilmLemmas.ResolvedGenreIsRequested | scripts/myDataBase.py:286-300 | in a store of lower-cased genres, the genre row a lookup matches is the requested genre itself |
| FilmLemmas.AddPreservesInvariant | scripts/myDataBase.py:256-328 | `add_film_to_bd` keeps every id below its counter, every film joined, genres lower case and ratings non-empty |
| FilmLemmas.UpdatePreservesInvariant | scripts/myDataBase.py:358-409 | `update_data` keeps the same store invariant |
| FilmLemmas.DeletePreservesInvariant | scripts/myDataBase.py:204-208 | `del_film` keeps the same store invariant |
| FilmLemmas.AddedFilmIsFound | scripts/myDataBase.py:256-328 | after an accepted add, `find_film_by_id` on the new id and `find_film_by_name` on the stripped name find the film, with the lower-cased genre, a status matching the requested one and the stored rating |
| FilmLemmas.AddTwiceRejected | scripts/myDataBase.py:268-283 | repeating an accepted add returns 0 and changes nothing, unless the rating was white space only |
| FilmLemmas.DuplicateIgnoresAsciiCase | scripts/myDataBase.py:268-283 | the duplicate check finds a film exactly when some joined film equals the request in name, genre and status up to ASCII case, and in rating exactly |
| FilmLemmas.AddCaseVariantRefused | scripts/myDataBase.py:268-283 | an add whose name, genre and status differ from a stored film only in ASCII case, with the same rating, returns 0 and writes nothing |
| FilmLemmas.BlankRatingNeverDuplicate | scripts/myDataBase.py:260-279 | a request whose rating stripped to "" matches no stored film, because every stored rating is non-empty |
| FilmLemmas.ResolveGenreTwice | scripts/myDataBase.py:284-300 | resolving a genre again gives the same id and inserts nothing |
| FilmLemmas.AddedRow | scripts/myDataBase.py:318-326 | an accepted add is the genre resolution followed by one film insert with the resolved ids and stored rating |
| FilmLemmas.AddAgainSameRow | scripts/myDataBase.py:268-326 | a second accepted add of the same request inserts a copy of the first row at the next id |
| FilmLemmas.AddTwiceBlankRating | scripts/myDataBase.py:260-326 | with a white-space rating, the second identical add is accepted too and inserts a copy of the first row |
| FilmLemmas.UpdateKeepsName | scripts/myDataBase.py:406-408 | after an accepted update the film is found by id under its old name, with the new genre, status, rating and description |
| FilmLemmas.UpdateMissingId | scripts/myDataBase.py:406-409 | an update of an id no row has writes no film and still returns 1 when the name and status pass |
| FilmLemmas.DeleteThenFind | scripts/myDataBase.py:204-208 | after `del_film(id)` that id is not found, and every other id is found exactly as before |
| FilmLemmas.DeleteMissingId | scripts/myDataBase.py:204-208 | deleting an id no row has changes nothing and returns 0 |
| FilmLemmas.DeletedIdNotReused | scripts/myDataBase.py:110-112 | an add after a delete never reuses the deleted id (`AUTOINCREMENT`) |
| FilmLemmas.UnknownStatusLeavesGenre | scripts/myDataBase.py:296-316 | with an unknown status and a new genre, the add returns 0 but the genre row stays |
| FilmSession.Apply | scripts/myDataBase.py:32-36 | no writing call changes the status or rating table, opening the file changes them only when they are empty, and no call removes a genre |
| FilmSession.Run | scripts/myDataBase.py:32-36 | once the status and rating tables hold rows, no sequence of calls changes them, and no genre ever disappears |
| FilmSession.ApplyPreservesInvariant | scripts/myDataBase.py:32-36 | any one call, opening the file included, keeps the store invariant and genres and statuses 1 to 3 |
| FilmSession.RunPreservesInvariant | scripts/myDataBase.py:32-36 | any sequence of calls, reopens included, keeps the store invariant and genres and statuses 1 to 3 |
| FilmSession.ReachableInvariant | scripts/myDataBase.py:32-140 | every store reachable from a fresh file by writes and reopens keeps the invariant, and its statuses are the three seeded ones |
| FilmExamples.SciFiIsNewGenre | scripts/myDataBase.py:286-298 | "sci-fi" matches no seeded genre, so it would be inserted |
| FilmExamples.DuneIsNew | scripts/myDataBase.py:268-283 | no seeded film is a duplicate of "Dune" |
| FilmExamples.PlannedIsStatusOne | scripts/myDataBase.py:302-314 | "В планах" resolves to status 1 in the seeded store |
| FilmExamples.LowerCasePlannedIsUnknown | scripts/myDataBase.py:302-316 | "в планах" matches no seeded status, because `LOWER()` does not fold Cyrillic |
| FilmExamples.AddDune | scripts/myDataBase.py:256-328 | adding "Dune" as "sci-fi", "В планах", "4" to the seeded store returns 1 and creates genre 4 and film 4 |
| FilmExamples.DuneFoundByName | scripts/myDataBase.py:149-175 | after that add, searching "Dune" finds exactly the new film's view |
| FilmExamples.LowerCaseCyrillicStatusRefused | scripts/myDataBase.py:296-316 | the same add with status "в планах" returns 0 but leaves the genre "sci-fi" behind |
| FilmExamples.AddUpperCaseDuneRefused | scripts/myDataBase.py:268-283 | after that add, adding "DUNE" with the same genre, status and rating returns 0 and writes nothing |
| FilmExamples.FilmOneIsGreenMile | scripts/myDataBase.py:65-66 | seeded film 1 is "Зелёная миля" |
| FilmExamples.BlankGenreFilmAccepted | scripts/myDataBase.py:365-401 | `update_data` with name "x", a blank genre and status "В планах" passes the name check and finds the status, so it writes and returns 1 |
| FilmExamples.UpdateToBlankGenre | scripts/myDataBase.py:370-409 | after `update_data` moves film 1 to a blank genre, film 1 is still "Зелёная миля" and points at a genre row that is empty under `LOWER()`, status "В планах" and rating "4" |
| FilmExamples.BlankGenreDuplicateNotRaised | scripts/myDataBase.py:268-283 | after that update, adding "Зелёная миля" with a blank genre, "В планах" and "4" matches film 1 in the duplicate check, so it returns 0 and writes nothing; it never reaches the unbound `genre_id` |
| FilmExamples.AllIsNotTheSentinel | scripts/myDataBase.py:214-240 | a status filter of "All" finds nothing in the seeded store: it is not the sentinel |

## Left out

- `get_db_path` and the directory and permission probing at the top of
  `db_init`: file-system I/O with no effect on the tables.
- Connections, `row_factory`, commits and the `print` calls are I/O. Each
  call is one atomic step. An exception leaves the store as it was, which
  matches the rollback of `with sq.connect(...)`.
- The `CREATE TABLE IF NOT EXISTS` statements are not modelled. The model
  always has four tables.
- The `try`/`except` around `find_film_by_name` is left out. It only turns
  database errors into `[]`, and the model has none.
- The model has no string rendering of the `film_rating` argument: it takes text.
  `str(rating)` of a non-string and the `int(film_id)` parse failure in
  `find_film_by_id` are outside it.
- Result order and the `'active': False` key: the queries return sets of
  views (there is no `ORDER BY`), and the key is a constant.
- FilmStore.Lookup: "the first row of the scan" is modelled as the least
  matching id. SQLite does not promise that order without an `ORDER BY`.
- Text.PyLower: folds ASCII and the basic Cyrillic block U+0400..U+042F
  only, not every cased letter Python knows.
- FilmStore.StoredRating: ratings are kept as text. SQLite's integer
  affinity on `filmlist.rating` (which makes "04" and 4 compare equal) is
  not modelled.
- The `rating` table is seeded (FilmSeed.Init) but never read by any method,
  so nothing relates it to film ratings.

=== FILE: film_examples.dfy ===
/** Worked cases on the store a fresh file holds after `db_init`. */
module FilmExamples {
  import opened Text
  import opened Tables
  import opened FilmStore
  import opened FilmQueries
  import opened FilmSeed
  import opened FilmLemmas

  /** The store after adding "Dune" as "sci-fi", "В планах", rating "4". */
  const WithDune: Store := Store(SeededStatuses, SeededRatings, DuneGenres, DuneFilms)

  const DuneGenres: Table<string> := Table(SeededGenres.rows[4 := "sci-fi"], 5)

  const DuneFilms: Table<Film> := Table(SeededFilms.rows[4 := Film("Dune", 4, 1, "4", "")], 5)

  /** The seeded genres are 14, 5 and 7 characters long. */
  lemma SeededGenreLength(k: int)
    requires k in SeededGenres.rows
    ensures 5 <= |SeededGenres.rows[k]| <= 14 && |SeededGenres.rows[k]| != 6
  {
    assert k == 1 || k == 2 || k == 3;
  }

  /** No seeded genre is "sci-fi" under `LOWER()`. */
  lemma SciFiIsNewGenre()
    ensures !Known(Seeded.genres, "sci-fi")
  {
    forall k | k in SeededGenres.rows
      ensures |SqlLower(SeededGenres.rows[k])| != |SqlLower("sci-fi")|
    {
      SeededGenreLength(k);
    }
  }

  /** The seeded film names are 12, 9 and 6 characters long. */
  lemma SeededFilmNameLength(k: int)
    requires k in SeededFilms.rows
    ensures 6 <= |SeededFilms.rows[k].name| <= 12
  {
    assert k == 1 || k == 2 || k == 3;
  }

  /** No seeded film is called "Dune" under `LOWER()`. */
  lemma DuneIsNew(status: string)
    ensures !IsDuplicate(Seeded, Request("Dune", "sci-fi", status, "4", ""))
  {
    forall k | k in SeededFilms.rows
      ensures |SqlLower(SeededFilms.rows[k].name)| != |SqlLower("Dune")|
    {
      SeededFilmNameLength(k);
    }
  }

  /** The seeded statuses other than status 1 are ten characters long,
      so under `LOWER()` they match no eight-character status. */
  lemma OtherStatusLonger(k: int)
    requires k in SeededStatuses.rows
    ensures k == 1 || |SeededStatuses.rows[k]| == 10
  {
    assert k == 1 || k == 2 || k == 3;
  }

  /** "В планах" is status 1. */
  lemma PlannedIsStatusOne()
    ensures Lookup(Seeded.statuses, "В планах") == Some(1)
  {
    var t := SeededStatuses;
    assert Seeded.statuses == t;
    assert 1 in t.rows && t.rows[1] == "В планах";
    var r := Lookup(t, "В планах");
    assert r.Some? && SqlLower(t.rows[r.value]) == SqlLower("В планах");
    OtherStatusLonger(r.value);
  }

  /** `LOWER()` does not fold Cyrillic: "в планах" is no seeded status. */
  lemma LowerCasePlannedIsUnknown()
    ensures !Known(Seeded.statuses, "в планах")
  {
    forall k | k in SeededStatuses.rows
      ensures SqlLower(SeededStatuses.rows[k]) != SqlLower("в планах")
    {
      NotLowerCasePlanned(k);
    }
  }

  /** Status `k` differs from "в планах" under `LOWER()`: status 1 in its
      first letter, which `LOWER()` leaves alone, the others in length. */
  lemma NotLowerCasePlanned(k: int)
    requires k in SeededStatuses.rows
    ensures SqlLower(SeededStatuses.rows[k]) != SqlLower("в планах")
  {
    var a := SeededStatuses.rows[k];
    if k == 1 {
      assert a[0] == 'В';
      assert SqlLower(a)[0] == 'В';
      assert SqlLower("в планах")[0] == 'в';
    } else {
      assert k == 2 || k == 3;
      assert |a| == 10;
    }
  }

  /** The request for "Dune" passes every check of `add_film_to_bd`. */
  lemma DuneAccepted()
    ensures AddAccepted(Seeded, Request("Dune", "sci-fi", "В планах", "4", ""))
  {
    DuneIsNew("В планах");
    PlannedIsStatusOne();
  }

  /** Adding "Dune" to the seeded store is accepted: the genre "sci-fi" is
      created at id 4 and the film at id 4, pointing at status 1. */
  lemma AddDune()
    ensures AddRequest(Seeded, Request("Dune", "sci-fi", "В планах", "4", "")) == Step(WithDune, Returned(1))
  {
    var q := Request("Dune", "sci-fi", "В планах", "4", "");
    DuneAccepted();
    SciFiIsNewGenre();
    PlannedIsStatusOne();
    AddedRow(Seeded, q);
  }

  /** Only film 4 of the new store is called "Dune". */
  lemma OnlyFourIsDune()
    ensures forall id :: id in WithDune.films.rows && WithDune.films.rows[id].name == "Dune" ==> id == 4
  {
    forall id | id in WithDune.films.rows && id != 4
      ensures WithDune.films.rows[id].name != "Dune"
    {
      assert id in SeededFilms.rows && WithDune.films.rows[id] == SeededFilms.rows[id];
      SeededFilmNameLength(id);
    }
  }

  /** The view of film 4 in the new store. */
  const DuneView: View := View("Dune", "sci-fi", "В планах", "4", "", 4)

  /** Film 4 resolves to "sci-fi" and "В планах". */
  lemma DuneViewOfFour()
    ensures WithDune.Joined(4) && ViewOf(WithDune, 4) == DuneView
  {
    assert WithDune.films.rows[4] == Film("Dune", 4, 1, "4", "");
    assert WithDune.genres.rows[4] == "sci-fi";
    assert WithDune.statuses.rows[1] == "В планах";
  }

  /** Every view a search for "Dune" finds is film 4's. */
  lemma OnlyDuneView(w: View)
    requires w in FindFilmsByName(WithDune, "Dune")
    ensures w == DuneView
  {
    assert w in AllFilms(WithDune) && w.name == "Dune";
    assert w == ViewOf(WithDune, w.filmId);
    OnlyFourIsDune();
    DuneViewOfFour();
  }

  /** Searching the new store by name finds "Dune" alone. */
  lemma DuneFoundByName()
    ensures FindFilmsByName(WithDune, "Dune") == {DuneView}
  {
    DuneViewOfFour();
    assert DuneView in AllFilms(WithDune);
    forall w | w in FindFilmsByName(WithDune, "Dune")
      ensures w == DuneView
    {
      OnlyDuneView(w);
    }
  }

  /** "DUNE" is "Dune" up to ASCII case. */
  lemma DuneUpperCase()
    ensures AsciiCaseVariant("Dune", "DUNE")
  {
    var a, b := "Dune", "DUNE";
    assert SameIgnoringAsciiCase(a[0], b[0]) && SameIgnoringAsciiCase(a[1], b[1]);
    assert SameIgnoringAsciiCase(a[2], b[2]) && SameIgnoringAsciiCase(a[3], b[3]);
  }

  /** Adding "DUNE" with the same genre, status and rating to the new store
      is refused as a duplicate of film 4, and nothing is written. */
  lemma AddUpperCaseDuneRefused()
    ensures AddRequest(WithDune, Request("DUNE", "sci-fi", "В планах", "4", "")) == Step(WithDune, Returned(0))
  {
    var q := Request("DUNE", "sci-fi", "В планах", "4", "");
    DuneViewOfFour();
    DuneUpperCase();
    assert AsciiCaseVariant(WithDune.genres.rows[4], q.genre);
    assert AsciiCaseVariant(WithDune.statuses.rows[1], q.status);
    AddCaseVariantRefused(WithDune, 4, q);
  }

  /** The `update_data` request that moves a film to the empty genre. */
  const BlankGenreFilm: Request := Request("x", "", "В планах", "4", "")

  /** Seeded film 1 is "Зелёная миля". */
  lemma FilmOneIsGreenMile()
    ensures 1 in Seeded.films.rows && Seeded.films.rows[1].name == "Зелёная миля"
  {
    assert Seeded.films == SeededFilms;
  }

  /** `update_data` accepts the blank-genre request: its name is usable
      and its status is known. */
  lemma BlankGenreFilmAccepted()
    ensures UpdateAccepted(Seeded, BlankGenreFilm)
  {
    PlannedIsStatusOne();
  }

  /** `update_data` on film 1 with a blank genre is accepted: the film
      keeps its name and now points at a genre row that is "" under
      `LOWER()`, with status "В планах" and rating "4". */
  lemma UpdateToBlankGenre()
    ensures var s1 := UpdateRequest(Seeded, 1, BlankGenreFilm).store;
            && 1 in s1.films.rows
            && Carries(s1, s1.films.rows[1], BlankGenreFilm)
            && s1.films.rows[1].name == "Зелёная миля"
  {
    BlankGenreFilmAccepted();
    FilmOneIsGreenMile();
  }

  /** Once `update_data` has pointed film 1 at an empty genre, adding that
      film again with a blank genre is caught by the duplicate check and
      returns 0; it does not reach the unbound `genre_id`. */
  lemma BlankGenreDuplicateNotRaised()
    ensures var s1 := UpdateRequest(Seeded, 1, BlankGenreFilm).store;
            AddRequest(s1, Request("Зелёная миля", "", "В планах", "4", "")) == Step(s1, Returned(0))
  {
    var s1 := UpdateRequest(Seeded, 1, BlankGenreFilm).store;
    var q := Request("Зелёная миля", "", "В планах", "4", "");
    UpdateToBlankGenre();
    assert s1.Joined(1) && SameFilm(s1, 1, q);
  }

  /** With the status typed in lower case the add is refused, but "sci-fi"
      was inserted first and stays. */
  lemma LowerCaseCyrillicStatusRefused()
    ensures AddRequest(Seeded, Request("Dune", "sci-fi", "в планах", "4", ""))
         == Step(Seeded.(genres := Seeded.genres.Insert("sci-fi")), Returned(0))
  {
    SciFiIsNewGenre();
    DuneIsNew("в планах");
    LowerCasePlannedIsUnknown();
    UnknownStatusLeavesGenre(Seeded, Request("Dune", "sci-fi", "в планах", "4", ""));
  }

  /** The sentinel is "Все": "All" is an ordinary status filter, and no
      seeded status is called that. */
  lemma AllIsNotTheSentinel()
    ensures FindFilmsWithFilters(Seeded, "All", "") == {}
  {
    forall w | w in FindFilmsWithFilters(Seeded, "All", "")
      ensures false
    {
    }
  }
}

=== FILE: film_lemmas.dfy ===
/** Properties that relate the store's operations to each other: what the
    store invariant buys, what a later read sees after a write, and what a
    repeated write does. */
module FilmLemmas {
  import opened Text
  import opened Tables
  import opened FilmStore
  import opened FilmQueries

  /** The genre row an accepted write resolved to is the normalised genre
      itself, not merely a case-variant of it. */
  lemma ResolvedGenreIsRequested(s: Store, g: int, genre: string)
    requires s.CanonicalGenres() && g in s.genres.rows
    requires PyLower(genre) == genre
    requires SqlLower(s.genres.rows[g]) == SqlLower(genre)
    ensures s.genres.rows[g] == genre
  {
    SqlLowerMatchOfCanonical(s.genres.rows[g], genre);
  }

  /** The invariant survives any write that keeps the status and rating
      tables, at most inserts the lower-case genre `g`, keeps the film ids
      below the counter, and touches no film row but `id`, which it leaves
      (if present) joined and rated. */
  lemma InvariantKept(s: Store, r: Store, g: string, id: int)
    requires s.Invariant() && PyLower(g) == g
    requires r.statuses == s.statuses && r.ratings == s.ratings
    requires r.genres == s.genres || r.genres == s.genres.Insert(g)
    requires r.films.Valid()
    requires forall k :: k in r.films.rows && k != id ==> k in s.films.rows && r.films.rows[k] == s.films.rows[k]
    requires id in r.films.rows ==> r.Joined(id) && r.films.rows[id].rating != ""
    ensures r.Invariant()
  {
    assert s.genres.rows.Keys <= r.genres.rows.Keys;
    forall k | k in r.films.rows && k != id
      ensures r.Joined(k) && r.films.rows[k].rating != ""
    {
      assert s.Joined(k);
    }
  }

  /** `add_film_to_bd` keeps the store invariant. */
  lemma AddPreservesInvariant(s: Store, q: Request)
    requires s.Invariant() && PyLower(q.genre) == q.genre
    ensures AddRequest(s, q).store.Invariant()
  {
    var st := AddRequest(s, q);
    var r := st.store;
    var id := s.films.next;
    if st.reply == Returned(1) {
      assert Carries(r, r.films.rows[id], q);
    }
    assert r.films.Valid();
    InvariantKept(s, r, q.genre, id);
  }

  /** `update_data` keeps the store invariant. */
  lemma UpdatePreservesInvariant(s: Store, id: int, q: Request)
    requires s.Invariant() && PyLower(q.genre) == q.genre
    ensures UpdateRequest(s, id, q).store.Invariant()
  {
    var st := UpdateRequest(s, id, q);
    var r := st.store;
    if id in r.films.rows {
      if st.reply == Returned(1) {
        assert Carries(r, r.films.rows[id], q);
      } else {
        assert r.films.rows[id] == s.films.rows[id] && s.Joined(id);
      }
    }
    assert r.films.Valid();
    InvariantKept(s, r, q.genre, id);
  }

  /** `del_film` keeps the store invariant. */
  lemma DeletePreservesInvariant(s: Store, id: int)
    requires s.Invariant()
    ensures DeleteFilm(s, id).store.Invariant()
  {
  }

  /** After an accepted add, the new film is found by its id and by its
      stripped name, with the lower-cased genre, a status that matches the
      requested one under `LOWER()`, and the stored rating. */
  lemma AddedFilmIsFound(s: Store, name: string, genre: string, status: string, rating: string, description: string)
    requires s.Invariant()
    requires AddFilm(s, name, genre, status, rating, description).reply == Returned(1)
    ensures
      var q := Normalise(name, genre, status, rating, description);
      var r := AddFilm(s, name, genre, status, rating, description).store;
      var v := FindFilmById(r, s.films.next);
      && v.Some?
      && v.value.name == Trim(name)
      && v.value.genre == PyLower(Trim(genre))
      && SqlLower(v.value.status) == SqlLower(Trim(status))
      && v.value.rating == StoredRating(q.rating)
      && v.value.description == Trim(description)
      && v.value in FindFilmsByName(r, Trim(name))
  {
    var q := Normalise(name, genre, status, rating, description);
    var r := AddRequest(s, q).store;
    AddPreservesInvariant(s, q);
    var f := r.films.rows[s.films.next];
    ResolvedGenreIsRequested(r, f.genre, q.genre);
    assert r.Joined(s.films.next);
  }

  /** Adding the same film twice: the second call finds the first as a
      duplicate and changes nothing, unless the rating was white space
      only (see `BlankRatingNeverDuplicate`). */
  lemma AddTwiceRejected(s: Store, name: string, genre: string, status: string, rating: string, description: string)
    requires s.Invariant()
    requires AddFilm(s, name, genre, status, rating, description).reply == Returned(1)
    requires !(rating != "" && Blank(rating))
    ensures
      var s1 := AddFilm(s, name, genre, status, rating, description).store;
      AddFilm(s1, name, genre, status, rating, description) == Step(s1, Returned(0))
  {
    var q := Normalise(name, genre, status, rating, description);
    var s1 := AddRequest(s, q).store;
    var id := s.films.next;
    assert s1.Joined(id) && SameFilm(s1, id, q);
    assert IsDuplicate(s1, q);
  }

  /** A rating that strips to "" reaches the duplicate check as "", but is
      stored as "0": no stored film can match it. */
  lemma BlankRatingNeverDuplicate(s: Store, q: Request)
    requires s.RatedFilms() && q.rating == ""
    ensures !IsDuplicate(s, q)
  {
  }

  /** Film `id` and `q` agree on name, genre and status up to the case of
      ASCII letters, and on the rating exactly. */
  predicate MatchesIgnoringAsciiCase(s: Store, id: int, q: Request)
    requires s.Joined(id)
  {
    var f := s.films.rows[id];
    && AsciiCaseVariant(f.name, q.name)
    && AsciiCaseVariant(s.genres.rows[f.genre], q.genre)
    && AsciiCaseVariant(s.statuses.rows[f.status], q.status)
    && f.rating == q.rating
  }

  /** The duplicate check is case-insensitive for ASCII letters and for
      nothing else: a request is a duplicate exactly when some stored film
      differs from it at most in the case of ASCII letters. */
  lemma DuplicateIgnoresAsciiCase(s: Store, q: Request)
    ensures IsDuplicate(s, q) <==>
            exists id :: id in s.films.rows && s.Joined(id) && MatchesIgnoringAsciiCase(s, id, q)
  {
    forall id | id in s.films.rows && s.Joined(id)
      ensures SameFilm(s, id, q) <==> MatchesIgnoringAsciiCase(s, id, q)
    {
      var f := s.films.rows[id];
      SqlLowerMatchIsAsciiCaseVariant(f.name, q.name);
      SqlLowerMatchIsAsciiCaseVariant(s.genres.rows[f.genre], q.genre);
      SqlLowerMatchIsAsciiCaseVariant(s.statuses.rows[f.status], q.status);
    }
  }

  /** An add that differs from a stored film only in the case of ASCII
      letters returns 0 and changes nothing. */
  lemma AddCaseVariantRefused(s: Store, id: int, q: Request)
    requires s.Joined(id) && MatchesIgnoringAsciiCase(s, id, q)
    ensures AddRequest(s, q) == Step(s, Returned(0))
  {
    DuplicateIgnoresAsciiCase(s, q);
  }

  /** Resolving a genre a second time finds the row the first time gave,
      and inserts nothing. */
  lemma ResolveGenreTwice(s: Store, genre: string)
    ensures
      var (s1, g) := ResolveGenre(s, genre);
      ResolveGenre(s1, genre) == (s1, g)
  {
    var (s1, g) := ResolveGenre(s, genre);
    if !Known(s.genres, genre) {
      assert forall k :: k in s1.genres.rows && SqlLower(s1.genres.rows[k]) == SqlLower(genre) ==> k == s.genres.next;
    }
  }

  /** The row an accepted add inserts, field by field. */
  lemma AddedRow(s: Store, q: Request)
    requires AddAccepted(s, q)
    ensures
      var (s1, g) := ResolveGenre(s, q.genre);
      && Lookup(s.statuses, q.status).Some?
      && AddRequest(s, q).store == s1.(films := s.films.Insert(
           Film(q.name, g, Lookup(s.statuses, q.status).value, StoredRating(q.rating), q.description)))
  {
  }

  /** A second accepted add of the same request inserts the same row
      again, at the next id. */
  lemma AddAgainSameRow(s: Store, q: Request)
    requires AddAccepted(s, q)
    requires AddAccepted(AddRequest(s, q).store, q)
    ensures
      var s1 := AddRequest(s, q).store;
      var s2 := AddRequest(s1, q).store;
      && s.films.next in s1.films.rows && s1.films.next == s.films.next + 1
      && s2.films == s1.films.Insert(s1.films.rows[s.films.next])
  {
    var s1 := AddRequest(s, q).store;
    AddedRow(s, q);
    AddedRow(s1, q);
    ResolveGenreTwice(s, q.genre);
    var (t, g) := ResolveGenre(s, q.genre);
    assert s1.genres == t.genres;
    assert ResolveGenre(s1, q.genre).1 == ResolveGenre(t, q.genre).1 == g;
    var sid := Lookup(s.statuses, q.status).value;
    assert Lookup(s1.statuses, q.status) == Some(sid);
  }

  /** So adding the same film twice with a white-space rating inserts two
      identical rows. */
  lemma AddTwiceBlankRating(s: Store, name: string, genre: string, status: string, rating: string, description: string)
    requires s.Invariant()
    requires AddFilm(s, name, genre, status, rating, description).reply == Returned(1)
    requires rating != "" && Blank(rating)
    ensures
      var s1 := AddFilm(s, name, genre, status, rating, description).store;
      var s2 := AddFilm(s1, name, genre, status, rating, description);
      && s2.reply == Returned(1)
      && s2.store.films == s1.films.Insert(s1.films.rows[s.films.next])
  {
    var q := Normalise(name, genre, status, rating, description);
    var s1 := AddRequest(s, q).store;
    AddPreservesInvariant(s, q);
    BlankRatingNeverDuplicate(s1, q);
    assert AddAccepted(s1, q);
    AddAgainSameRow(s, q);
  }

  /** `update_data` never touches a name: after an accepted update the film
      is found under its old name, with the new genre, status, rating and
      description. */
  lemma UpdateKeepsName(s: Store, id: int, name: string, genre: string, status: string, rating: string, description: string)
    requires s.Invariant() && id in s.films.rows
    requires UpdateFilm(s, id, name, genre, status, rating, description).reply == Returned(1)
    ensures
      var q := Normalise(name, genre, status, rating, description);
      var r := UpdateFilm(s, id, name, genre, status, rating, description).store;
      var v := FindFilmById(r, id);
      && v.Some?
      && v.value.name == s.films.rows[id].name
      && v.value.genre == PyLower(Trim(genre))
      && SqlLower(v.value.status) == SqlLower(Trim(status))
      && v.value.rating == StoredRating(q.rating)
      && v.value.description == Trim(description)
  {
    var q := Normalise(name, genre, status, rating, description);
    var r := UpdateRequest(s, id, q).store;
    UpdatePreservesInvariant(s, id, q);
    ResolvedGenreIsRequested(r, r.films.rows[id].genre, q.genre);
  }

  /** `update_data` on an id no row has writes no film and still returns 1
      when the name and status pass. */
  lemma UpdateMissingId(s: Store, id: int, q: Request)
    requires id !in s.films.rows
    ensures UpdateRequest(s, id, q).store.films == s.films
    ensures UpdateAccepted(s, q) ==> UpdateRequest(s, id, q).reply == Returned(1)
  {
    var r := UpdateRequest(s, id, q).store;
    assert r.films.rows == s.films.rows;
  }

  /** After `del_film(id)` the id is not found; every other id is found
      exactly as before. */
  lemma DeleteThenFind(s: Store, id: int)
    ensures FindFilmById(DeleteFilm(s, id).store, id) == None
    ensures forall k :: k != id ==> FindFilmById(DeleteFilm(s, id).store, k) == FindFilmById(s, k)
  {
  }

  /** `del_film` on an id no row has changes nothing. */
  lemma DeleteMissingId(s: Store, id: int)
    requires id !in s.films.rows
    ensures DeleteFilm(s, id) == Step(s, Returned(0))
  {
    assert s.films.rows - {id} == s.films.rows;
  }

  /** A deleted film's id is never handed out again. */
  lemma DeletedIdNotReused(s: Store, id: int, name: string, genre: string, status: string, rating: string, description: string)
    requires s.films.Valid() && id in s.films.rows
    ensures
      var r := AddFilm(DeleteFilm(s, id).store, name, genre, status, rating, description);
      id !in r.store.films.rows
  {
  }

  /** The orphan genre: when the status is unknown, the genre is inserted
      first and stays, though no film refers to it. */
  lemma UnknownStatusLeavesGenre(s: Store, q: Request)
    requires !NameRejected(q.name) && !IsDuplicate(s, q) && q.genre != ""
    requires !Known(s.statuses, q.status) && !Known(s.genres, q.genre)
    ensures AddRequest(s, q) == Step(s.(genres := s.genres.Insert(q.genre)), Returned(0))
  {
  }
}

=== FILE: film_queries.dfy ===
/** The read side of `myDataBase`: `get_all_films`, `find_film_by_name`,
    `find_film_by_id` and `find_films_with_filters`. Every one of them runs
    the same `filmlist JOIN genre JOIN status` and turns each row into a
    view carrying the genre and status names. Results are sets: the SQL has
    no `ORDER BY`, and each view carries its film's id, so no two coincide. */
module FilmQueries {
  import opened Tables
  import opened FilmStore

  /** One result dict. Its `active` key is always `False` and is left out. */
  datatype View = View(name: string, genre: string, status: string, rating: string, description: string, filmId: int)

  /** The status filter value that means "any status". */
  const AnyStatus: string := "Все"

  /** The joined row for film `id`. */
  function ViewOf(s: Store, id: int): View
    requires s.Joined(id)
  {
    var f := s.films.rows[id];
    View(f.name, s.genres.rows[f.genre], s.statuses.rows[f.status], f.rating, f.description, id)
  }

  /** `get_all_films`: a view for exactly the films whose genre and status
      both resolve, and for nothing else. */
  function AllFilms(s: Store): (r: set<View>)
    ensures forall v :: v in r ==> s.Joined(v.filmId) && v == ViewOf(s, v.filmId)
    ensures forall id :: s.Joined(id) ==> ViewOf(s, id) in r
  {
    set id | id in s.films.rows && s.Joined(id) :: ViewOf(s, id)
  }

  /** `find_film_by_name`: the views whose name is exactly `name`
      (SQLite's `=` on text is case-sensitive). */
  function FindFilmsByName(s: Store, name: string): (r: set<View>)
    ensures forall v :: v in r <==> v in AllFilms(s) && v.name == name
  {
    set id | id in s.films.rows && s.Joined(id) && s.films.rows[id].name == name :: ViewOf(s, id)
  }

  /** `find_film_by_id`: the view of film `id`, or `None` when no joined
      row has that id. */
  function FindFilmById(s: Store, id: int): (r: Option<View>)
    ensures r.None? <==> !s.Joined(id)
    ensures r.Some? ==> r.value in AllFilms(s) && r.value.filmId == id
    ensures forall v :: v in AllFilms(s) && v.filmId == id ==> r == Some(v)
  {
    if s.Joined(id) then Some(ViewOf(s, id)) else None
  }

  /** `find_films_with_filters`: four branches on whether each filter is
      its sentinel (`AnyStatus` for the status, "" for the rating). Taken
      together they keep a view exactly when it passes every filter that
      is set. The status is compared exactly, not under `LOWER()`. */
  function FindFilmsWithFilters(s: Store, status: string, rating: string): (r: set<View>)
    ensures forall v :: v in r <==>
              && v in AllFilms(s)
              && (status == AnyStatus || v.status == status)
              && (rating == "" || v.rating == rating)
  {
    if rating != "" && status != AnyStatus then
      set id | id in s.films.rows && s.Joined(id)
                 && s.statuses.rows[s.films.rows[id].status] == status
                 && s.films.rows[id].rating == rating
        :: ViewOf(s, id)
    else if rating != "" && status == AnyStatus then
      set id | id in s.films.rows && s.Joined(id) && s.films.rows[id].rating == rating :: ViewOf(s, id)
    else if rating == "" && status == AnyStatus then
      set id | id in s.films.rows && s.Joined(id) :: ViewOf(s, id)
    else
      set id | id in s.films.rows && s.Joined(id) && s.statuses.rows[s.films.rows[id].status] == status
        :: ViewOf(s, id)
  }

  /** With neither filter set, the filtered search is `get_all_films`. */
  lemma NoFiltersIsAllFilms(s: Store)
    ensures FindFilmsWithFilters(s, AnyStatus, "") == AllFilms(s)
  {
  }

  /** With both filters set, the result is exactly the intersection of the
      status-only and the rating-only results. */
  lemma BothFiltersIntersect(s: Store, status: string, rating: string)
    requires status != AnyStatus && rating != ""
    ensures FindFilmsWithFilters(s, status, rating)
         == FindFilmsWithFilters(s, status, "") * FindFilmsWithFilters(s, AnyStatus, rating)
  {
  }

  /** When every film's genre and status resolve, `get_all_films` shows
      every film, once each. */
  lemma AllFilmsCoversStore(s: Store)
    requires s.Linked()
    ensures (set v | v in AllFilms(s) :: v.filmId) == s.films.rows.Keys
  {
    var ids := set v | v in AllFilms(s) :: v.filmId;
    forall id | id in s.films.rows
      ensures id in ids
    {
      assert ViewOf(s, id) in AllFilms(s);
    }
  }
}

=== FILE: film_seed.dfy ===
/** The seeding half of `myDataBase.db_init`: after the tables exist, each
    of `status`, `rating`, `genre` and `filmlist` that counts zero rows gets
    its seed rows, in that order. The seed films name their genre and
    status by the ids the seeds get in a fresh file. */
module FilmSeed {
  import opened Text
  import opened Tables
  import opened FilmStore

  const SeedStatuses: seq<string> := ["В планах", "Просмотрен", "В процессе"]

  const SeedRatings: seq<int> := [1, 2, 3, 4, 5]

  const SeedGenres: seq<string> := ["тёмное фэнтези", "ужасы", "фэнтези"]

  const SeedFilms: seq<Film> := [
    Film("Зелёная миля", 1, 2, "4", "Фильм жестокий, но очень поучительный и ценный"),
    Film("Я-легенда", 2, 1, "0", ""),
    Film("Наруто", 3, 3, "0", "")
  ]

  /** A database file that has just been created: four empty tables. */
  function NewStore(): (s: Store)
    ensures s.Invariant()
    ensures |s.statuses.rows| == 0 && |s.ratings.rows| == 0 && |s.genres.rows| == 0 && |s.films.rows| == 0
  {
    Store(EmptyTable(), EmptyTable(), EmptyTable(), EmptyTable())
  }

  /** `SELECT COUNT(*)`, then the seeds only when it is 0. A table that
      has rows is left exactly as it was; an empty one gets every seed, in
      order, from its counter on. */
  function SeedTable<T>(t: Table<T>, seeds: seq<T>): (r: Table<T>)
    ensures |t.rows| != 0 ==> r == t
    ensures |t.rows| == 0 ==>
              && r.next == t.next + |seeds|
              && (forall k :: k in r.rows <==> t.next <= k < t.next + |seeds|)
              && (forall i :: 0 <= i < |seeds| ==> r.rows[t.next + i] == seeds[i])
    ensures |seeds| != 0 ==> |r.rows| != 0
  {
    if |t.rows| == 0 then
      t.InsertAllRows(seeds);
      var r := t.InsertAll(seeds);
      assert |seeds| != 0 ==> t.next in r.rows;
      r
    else t
  }

  /** The seeding of `db_init`. */
  function Init(s: Store): (r: Store)
    ensures r.statuses == SeedTable(s.statuses, SeedStatuses)
    ensures r.ratings == SeedTable(s.ratings, SeedRatings)
    ensures r.genres == SeedTable(s.genres, SeedGenres)
    ensures r.films == SeedTable(s.films, SeedFilms)
    ensures |r.statuses.rows| != 0 && |r.ratings.rows| != 0 && |r.genres.rows| != 0 && |r.films.rows| != 0
  {
    Store(
      SeedTable(s.statuses, SeedStatuses),
      SeedTable(s.ratings, SeedRatings),
      SeedTable(s.genres, SeedGenres),
      SeedTable(s.films, SeedFilms))
  }

  /** Opening the store a second time writes nothing. */
  lemma InitIdempotent(s: Store)
    ensures Init(Init(s)) == Init(s)
  {
  }

  /** Seeding three rows is three inserts in a row. */
  lemma SeedThreeInserts<T>(t: Table<T>, seeds: seq<T>)
    requires |t.rows| == 0 && |seeds| == 3
    ensures SeedTable(t, seeds) == t.Insert(seeds[0]).Insert(seeds[1]).Insert(seeds[2])
  {
    assert t.InsertFirst(seeds, 1) == t.Insert(seeds[0]);
    assert t.InsertFirst(seeds, 2) == t.Insert(seeds[0]).Insert(seeds[1]);
  }

  /** Three seeds into an empty table land at the counter's next three ids. */
  lemma SeedThree<T>(t: Table<T>, seeds: seq<T>)
    requires |t.rows| == 0 && |seeds| == 3
    ensures SeedTable(t, seeds).rows == map[t.next := seeds[0], t.next + 1 := seeds[1], t.next + 2 := seeds[2]]
  {
    SeedThreeInserts(t, seeds);
    assert t.rows == map[];
  }

  /** A store whose films were all deleted gets the three seed films back
      on the next open, at fresh ids: the counter is not reset. */
  lemma InitReseedsEmptiedFilms(s: Store)
    requires |s.films.rows| == 0
    ensures Init(s).films.rows == map[
              s.films.next := SeedFilms[0], s.films.next + 1 := SeedFilms[1], s.films.next + 2 := SeedFilms[2]]
    ensures Init(s).films.next == s.films.next + 3
  {
    SeedThree(s.films, SeedFilms);
  }

  /** Each seed film names genre and status ids 1 to 3 and carries a
      rating. */
  lemma SeedFilmFits(i: int)
    requires 0 <= i < |SeedFilms|
    ensures 1 <= SeedFilms[i].genre <= 3 && 1 <= SeedFilms[i].status <= 3
    ensures SeedFilms[i].rating != ""
  {
    assert i == 0 || i == 1 || i == 2;
  }

  /** Seed films put into an empty film table name genre and status ids
      1 to 3 and carry a rating. */
  lemma ReseededFilmsFit(t: Table<Film>)
    requires |t.rows| == 0
    ensures forall id :: id in SeedTable(t, SeedFilms).rows ==>
              var f := SeedTable(t, SeedFilms).rows[id];
              1 <= f.genre <= 3 && 1 <= f.status <= 3 && f.rating != ""
  {
    var r := SeedTable(t, SeedFilms);
    forall id | id in r.rows
      ensures 1 <= r.rows[id].genre <= 3 && 1 <= r.rows[id].status <= 3 && r.rows[id].rating != ""
    {
      var i := id - t.next;
      assert 0 <= i < |SeedFilms| && r.rows[t.next + i] == SeedFilms[i];
      SeedFilmFits(i);
    }
  }

  /** Opening a file that already holds genres and statuses 1 to 3 keeps
      the store invariant: those two tables are left alone, and films
      reseeded into an emptied film table point at ids that still exist. */
  lemma ReopenKeepsInvariant(s: Store)
    requires s.Invariant()
    requires {1, 2, 3} <= s.genres.rows.Keys && {1, 2, 3} <= s.statuses.rows.Keys
    ensures Init(s).Invariant()
    ensures Init(s).genres == s.genres && Init(s).statuses == s.statuses
  {
    var r := Init(s);
    assert |s.genres.rows| != 0 && |s.statuses.rows| != 0;
    assert r.ratings.Valid();
    assert r.films.Valid();
    if |s.films.rows| == 0 {
      ReseededFilmsFit(s.films);
      forall id | id in r.films.rows
        ensures r.Joined(id) && r.films.rows[id].rating != ""
      {
        var f := r.films.rows[id];
        assert f.genre in {1, 2, 3} && f.status in {1, 2, 3};
      }
    } else {
      assert r.films == s.films;
    }
  }

  /** What a fresh file holds after `db_init`, written out table by table. */
  const SeededStatuses: Table<string> := Table(map[1 := "В планах", 2 := "Просмотрен", 3 := "В процессе"], 4)

  const SeededRatings: Table<int> := Table(map[1 := 1, 2 := 2, 3 := 3, 4 := 4, 5 := 5], 6)

  const SeededGenres: Table<string> := Table(map[1 := "тёмное фэнтези", 2 := "ужасы", 3 := "фэнтези"], 4)

  const SeededFilms: Table<Film> := Table(map[1 := SeedFilms[0], 2 := SeedFilms[1], 3 := SeedFilms[2]], 4)

  const Seeded: Store := Store(SeededStatuses, SeededRatings, SeededGenres, SeededFilms)

  /** Seeding a fresh file gives `Seeded`. */
  lemma SeededRows()
    ensures Init(NewStore()) == Seeded
  {
    var n := NewStore();
    var s := Init(n);
    SeedThree(n.statuses, SeedStatuses);
    SeedThree(n.genres, SeedGenres);
    SeedThree(n.films, SeedFilms);
    assert s.ratings.rows.Keys == Seeded.ratings.rows.Keys;
  }

  /** A seed genre is already in Python's lower case. */
  lemma SeedGenreCanonical(g: string)
    requires g in SeedGenres
    ensures PyLower(g) == g
  {
    if g == "тёмное фэнтези" {
      assert forall i :: 0 <= i < |g| ==> !IsUpper(g[i]);
    } else if g == "ужасы" {
      assert forall i :: 0 <= i < |g| ==> !IsUpper(g[i]);
    } else {
      assert g == "фэнтези";
      assert forall i :: 0 <= i < |g| ==> !IsUpper(g[i]);
    }
    PyLowerOfLower(g);
  }

  /** The store a fresh file holds after `db_init` satisfies the store
      invariant: every film resolves to its genre and status, the genres
      are lower case, and no rating is empty. */
  lemma SeededInvariant()
    ensures Seeded.Invariant()
  {
    var s := Seeded;
    assert s.Valid();
    assert s.Linked() by {
      forall id | id in s.films.rows
        ensures s.Joined(id)
      {
        assert id in {1, 2, 3};
      }
    }
    assert s.RatedFilms() by {
      forall id | id in s.films.rows
        ensures s.films.rows[id].rating != ""
      {
        assert id in {1, 2, 3};
      }
    }
    forall id | id in s.genres.rows
      ensures PyLower(s.genres.rows[id]) == s.genres.rows[id]
    {
      SeedGenreCanonical(s.genres.rows[id]);
    }
  }
}

=== FILE: film_session.dfy ===
/** A run of writes and reopens against one store, as the application
    issues them: whatever the sequence, the store invariant holds throughout and
    the status and rating tables stay as seeded. */
module FilmSession {
  import opened FilmStore
  import opened FilmLemmas
  import opened FilmSeed

  /** One call of a writing method, with its raw arguments, or the
      construction of a `myDataBase` object, whose `db_init` reseeds every
      table that is empty. */
  datatype Call =
    | Open
    | Add(name: string, genre: string, status: string, rating: string, description: string)
    | Update(id: int, name: string, genre: string, status: string, rating: string, description: string)
    | Delete(id: int)

  /** The store after one call. Writing calls never touch the status and
      rating tables; opening only seeds them when they are empty. No call
      removes a genre. */
  function Apply(s: Store, c: Call): (r: Store)
    ensures !c.Open? || |s.statuses.rows| != 0 ==> r.statuses == s.statuses
    ensures !c.Open? || |s.ratings.rows| != 0 ==> r.ratings == s.ratings
    ensures s.genres.rows.Keys <= r.genres.rows.Keys
  {
    match c
    case Open =>
      Init(s)
    case Add(name, genre, status, rating, description) =>
      AddFilm(s, name, genre, status, rating, description).store
    case Update(id, name, genre, status, rating, description) =>
      UpdateFilm(s, id, name, genre, status, rating, description).store
    case Delete(id) =>
      DeleteFilm(s, id).store
  }

  /** The store after the calls, one after another. Once the status and
      rating tables hold rows, no call changes them. */
  function Run(s: Store, calls: seq<Call>): (r: Store)
    ensures |s.statuses.rows| != 0 ==> r.statuses == s.statuses
    ensures |s.ratings.rows| != 0 ==> r.ratings == s.ratings
    ensures s.genres.rows.Keys <= r.genres.rows.Keys
    decreases |calls|
  {
    if calls == [] then s else Run(Apply(s, calls[0]), calls[1..])
  }

  /** The store invariant, plus genres and statuses 1 to 3, which the seed
      films name and which a reopen needs to find. */
  predicate Sound(s: Store) {
    s.Invariant() && {1, 2, 3} <= s.genres.rows.Keys && {1, 2, 3} <= s.statuses.rows.Keys
  }

  /** One call keeps the store sound. */
  lemma ApplyPreservesInvariant(s: Store, c: Call)
    requires Sound(s)
    ensures Sound(Apply(s, c))
  {
    match c
    case Open =>
      ReopenKeepsInvariant(s);
    case Add(name, genre, status, rating, description) =>
      AddPreservesInvariant(s, Normalise(name, genre, status, rating, description));
    case Update(id, name, genre, status, rating, description) =>
      UpdatePreservesInvariant(s, id, Normalise(name, genre, status, rating, description));
    case Delete(id) =>
      DeletePreservesInvariant(s, id);
  }

  /** Any run of calls keeps the store sound. */
  lemma {:induction false} RunPreservesInvariant(s: Store, calls: seq<Call>)
    requires Sound(s)
    ensures Sound(Run(s, calls))
    decreases |calls|
  {
    if calls != [] {
      ApplyPreservesInvariant(s, calls[0]);
      RunPreservesInvariant(Apply(s, calls[0]), calls[1..]);
    }
  }

  /** Every store a fresh file can reach, reopened any number of times,
      keeps the invariant, and its status table is the seeded one. */
  lemma ReachableInvariant(calls: seq<Call>)
    ensures Run(Init(NewStore()), calls).Invariant()
    ensures Run(Init(NewStore()), calls).statuses.rows == map[1 := "В планах", 2 := "Просмотрен", 3 := "В процессе"]
  {
    SeededRows();
    SeededSound();
    RunPreservesInvariant(Seeded, calls);
    assert |Seeded.statuses.rows| != 0;
  }

  /** A fresh file after `db_init` is sound. */
  lemma SeededSound()
    ensures Sound(Seeded)
  {
    SeededInvariant();
    assert 1 in SeededGenres.rows && 2 in SeededGenres.rows && 3 in SeededGenres.rows;
    assert 1 in SeededStatuses.rows && 2 in SeededStatuses.rows && 3 in SeededStatuses.rows;
  }
}

=== FILE: film_store.dfy ===
/** The film store of `myDataBase`: four autoincrement tables and the three
    operations that write to them, `add_film_to_bd`, `update_data` and
    `del_film`. Each call is one atomic step from a store to a store plus
    what the Python method returned (or that it raised). */
module FilmStore {
  import opened Text
  import opened Tables

  /** A `filmlist` row. `genre` and `status` hold ids of the lookup tables;
      the rating is kept as the text the store was handed. */
  datatype Film = Film(name: string, genre: int, status: int, rating: string, description: string)

  datatype Store = Store(
    statuses: Table<string>,
    ratings: Table<int>,
    genres: Table<string>,
    films: Table<Film>)
  {
    /** Every table's ids came from its own counter. */
    predicate Valid() {
      statuses.Valid() && ratings.Valid() && genres.Valid() && films.Valid()
    }

    /** Film `id` survives the `JOIN genre ... JOIN status ...` every read
        and the duplicate check perform. */
    predicate Joined(id: int) {
      id in films.rows && films.rows[id].genre in genres.rows && films.rows[id].status in statuses.rows
    }

    /** Every film's genre and status ids resolve. */
    predicate Linked() {
      forall id :: id in films.rows ==> Joined(id)
    }

    /** Every genre name is its own Python lower case, as the store writes them. */
    predicate CanonicalGenres() {
      forall id :: id in genres.rows ==> PyLower(genres.rows[id]) == genres.rows[id]
    }

    /** No stored rating is the empty text. */
    predicate RatedFilms() {
      forall id :: id in films.rows ==> films.rows[id].rating != ""
    }

    /** What every store reachable from the seeded one satisfies. */
    predicate Invariant() {
      Valid() && Linked() && CanonicalGenres() && RatedFilms()
    }
  }

  /** What a Python call ended with: `return code`, or an exception. */
  datatype Reply = Returned(code: int) | Raised

  datatype Step = Step(store: Store, reply: Reply)

  /** The five text arguments after the normalisation at the top of
      `add_film_to_bd` and `update_data`. */
  datatype Request = Request(name: string, genre: string, status: string, rating: string, description: string)

  /** `str(rating).strip() if rating else "0"`: an empty rating becomes
      "0", any other is stripped (and so may become ""). */
  function NormaliseRating(raw: string): (r: string)
    ensures raw == "" ==> r == "0"
    ensures raw != "" ==> StripOf(r, raw)
    ensures r == "" <==> raw != "" && Blank(raw)
    ensures r != "" && raw != "" ==> !IsSpace(r[0]) && !IsSpace(r[|r| - 1])
  {
    if raw == "" then "0" else StripOfIsTrim(Trim(raw), raw); Trim(raw)
  }

  /** Every text argument is stripped and the genre is lower-cased; an
      empty rating becomes "0" first. */
  function Normalise(name: string, genre: string, status: string, rating: string, description: string): (q: Request)
    ensures StripOf(q.name, name) && StripOf(q.status, status) && StripOf(q.description, description)
    ensures exists g :: StripOf(g, genre) && q.genre == PyLower(g)
    ensures rating == "" ==> q.rating == "0"
    ensures rating != "" ==> StripOf(q.rating, rating)
    ensures q.name == "" <==> Blank(name)
    ensures q.genre == "" <==> Blank(genre)
    ensures q.status == "" <==> Blank(status)
    ensures q.description == "" <==> Blank(description)
    ensures q.rating == "" <==> rating != "" && Blank(rating)
    ensures PyLower(q.genre) == q.genre
    ensures q.name != " "
  {
    PyLowerIdempotent(Trim(genre));
    TrimNeverSingleSpace(name);
    StripOfIsTrim(Trim(name), name);
    StripOfIsTrim(Trim(genre), genre);
    StripOfIsTrim(Trim(status), status);
    StripOfIsTrim(Trim(description), description);
    Request(Trim(name), PyLower(Trim(genre)), Trim(status), NormaliseRating(rating), Trim(description))
  }

  /** The rating written to `filmlist` (`if rating_id == "": rating_id = "0"`). */
  function StoredRating(rating: string): (r: string)
    ensures r != ""
    ensures rating == "" ==> r == "0"
    ensures rating != "" ==> r == rating
  {
    if rating == "" then "0" else rating
  }

  /** `name == "" or name == " "`: the blank-name guard. */
  predicate NameRejected(name: string) {
    name == "" || name == " "
  }

  /** Some row of `t` equals `key` under SQLite's `LOWER()`. */
  predicate Known(t: Table<string>, key: string) {
    exists k :: k in t.rows && SqlLower(t.rows[k]) == SqlLower(key)
  }

  /** `SELECT * FROM t WHERE LOWER(name) = LOWER(key)`, taking the first row
      of the scan, which is the one with the lowest id. */
  function Lookup(t: Table<string>, key: string): (r: Option<int>)
    ensures r.None? <==> !Known(t, key)
    ensures r.Some? ==> r.value in t.rows && SqlLower(t.rows[r.value]) == SqlLower(key)
    ensures r.Some? ==> forall k :: k in t.rows && SqlLower(t.rows[k]) == SqlLower(key) ==> r.value <= k
  {
    var hits := set k | k in t.rows && SqlLower(t.rows[k]) == SqlLower(key);
    assert forall k :: k in t.rows && SqlLower(t.rows[k]) == SqlLower(key) ==> k in hits;
    if hits == {} then None else Some(Least(hits))
  }

  /** Film `id` matches `q` as the duplicate check's `WHERE` clause asks:
      name, genre and status equal under `LOWER()`, rating equal. */
  predicate SameFilm(s: Store, id: int, q: Request)
    requires s.Joined(id)
  {
    var f := s.films.rows[id];
    && SqlLower(f.name) == SqlLower(q.name)
    && SqlLower(s.genres.rows[f.genre]) == SqlLower(q.genre)
    && SqlLower(s.statuses.rows[f.status]) == SqlLower(q.status)
    && f.rating == q.rating
  }

  /** The duplicate check's `SELECT` returns a row. */
  predicate IsDuplicate(s: Store, q: Request) {
    exists id :: id in s.films.rows && s.Joined(id) && SameFilm(s, id, q)
  }

  /** Find the genre by `LOWER()` match, or insert it. The id returned names
      a row that matches; a row is inserted only when none did. */
  function ResolveGenre(s: Store, genre: string): (r: (Store, int))
    ensures r.0 == s.(genres := r.0.genres)
    ensures r.1 in r.0.genres.rows && SqlLower(r.0.genres.rows[r.1]) == SqlLower(genre)
    ensures Known(s.genres, genre) ==> r.0 == s && r.1 in s.genres.rows
    ensures !Known(s.genres, genre) ==> r.0.genres == s.genres.Insert(genre) && r.1 == s.genres.next
  {
    match Lookup(s.genres, genre)
    case Some(id) => (s, id)
    case None => (s.(genres := s.genres.Insert(genre)), s.genres.next)
  }

  /** Film `f` carries what `q` asked for: its genre and status rows in `s`
      match `q`'s under `LOWER()`, and its rating is the stored form. */
  predicate Carries(s: Store, f: Film, q: Request) {
    && f.genre in s.genres.rows && SqlLower(s.genres.rows[f.genre]) == SqlLower(q.genre)
    && f.status in s.statuses.rows && SqlLower(s.statuses.rows[f.status]) == SqlLower(q.status)
    && f.rating == StoredRating(q.rating)
    && f.description == q.description
  }

  /** When `add_film_to_bd` inserts: a usable name, no duplicate, a genre,
      and a status that already exists. */
  predicate AddAccepted(s: Store, q: Request) {
    !NameRejected(q.name) && !IsDuplicate(s, q) && q.genre != "" && Known(s.statuses, q.status)
  }

  /** When `add_film_to_bd` raises: it reaches the insert with `genre_id`
      never bound, because an empty genre skips the genre block. */
  predicate AddRaises(s: Store, q: Request) {
    !NameRejected(q.name) && !IsDuplicate(s, q) && q.genre == "" && Known(s.statuses, q.status)
  }

  /** `add_film_to_bd` after its arguments were normalised. The status and
      rating tables never change. Exactly one film row is inserted, at the
      counter's id, when the add is accepted; otherwise the films stay.
      A genre row may be inserted even when the add is then refused for an
      unknown status, because the block commits on that `return 0`. */
  function AddRequest(s: Store, q: Request): (r: Step)
    ensures r.store.statuses == s.statuses && r.store.ratings == s.ratings
    ensures r.reply == Returned(1) <==> AddAccepted(s, q)
    ensures r.reply == Raised <==> AddRaises(s, q)
    ensures r.reply == Returned(0) || r.reply == Returned(1) || r.reply == Raised
    ensures NameRejected(q.name) || IsDuplicate(s, q) || r.reply == Raised ==> r.store == s
    ensures r.reply != Returned(1) ==> r.store.films == s.films
    ensures r.reply == Returned(1) ==>
              && s.films.next in r.store.films.rows
              && r.store.films == s.films.Insert(r.store.films.rows[s.films.next])
              && r.store.films.rows[s.films.next].name == q.name
              && Carries(r.store, r.store.films.rows[s.films.next], q)
    ensures || r.store.genres == s.genres
            || (q.genre != "" && !Known(s.genres, q.genre) && r.store.genres == s.genres.Insert(q.genre))
  {
    if NameRejected(q.name) then Step(s, Returned(0))
    else if IsDuplicate(s, q) then Step(s, Returned(0))
    else
      var (s1, genreId) :=
        if q.genre != "" then (var (t, g) := ResolveGenre(s, q.genre); (t, Some(g)))
        else (s, None);
      match Lookup(s1.statuses, q.status)
      case None => Step(s1, Returned(0))
      case Some(statusId) =>
        if genreId.None? then Step(s, Raised)
        else
          var row := Film(q.name, genreId.value, statusId, StoredRating(q.rating), q.description);
          Step(s1.(films := s1.films.Insert(row)), Returned(1))
  }

  /** `add_film_to_bd(name, genre, status, rating, description)`. */
  function AddFilm(s: Store, name: string, genre: string, status: string, rating: string, description: string): (r: Step)
    ensures Blank(name) ==> r == Step(s, Returned(0))
    ensures r.store.statuses == s.statuses
    ensures r.reply == Returned(1) ==> s.films.next in r.store.films.rows && r.store.films.rows[s.films.next].name == Trim(name)
  {
    var q := Normalise(name, genre, status, rating, description);
    assert Blank(name) ==> NameRejected(q.name);
    AddRequest(s, q)
  }

  /** `UPDATE filmlist SET genre, status, rating, description WHERE film_id = id`:
      the name column is not in the list. */
  function Rewrite(t: Table<Film>, id: int, genre: int, status: int, rating: string, description: string): (r: Table<Film>)
    ensures r.next == t.next && r.rows.Keys == t.rows.Keys
    ensures forall k :: k in t.rows && k != id ==> r.rows[k] == t.rows[k]
    ensures forall k :: k in t.rows ==> r.rows[k].name == t.rows[k].name
    ensures id in t.rows ==>
              && r.rows[id].genre == genre && r.rows[id].status == status
              && r.rows[id].rating == rating && r.rows[id].description == description
  {
    var rows := map k | k in t.rows ::
      if k == id then t.rows[k].(genre := genre, status := status, rating := rating, description := description)
      else t.rows[k];
    t.(rows := rows)
  }

  /** When `update_data` writes and returns 1: a usable name and an existing
      status. Whether a row has id `id` plays no part. */
  predicate UpdateAccepted(s: Store, q: Request) {
    !NameRejected(q.name) && Known(s.statuses, q.status)
  }

  /** `update_data` after its arguments were normalised. No film row is
      added or removed and no name changes; the row with id `id`, if any,
      gets the resolved genre and status and the new rating and
      description. The genre is resolved (and possibly inserted) before the
      status is checked, even when it is empty. */
  function UpdateRequest(s: Store, id: int, q: Request): (r: Step)
    ensures r.store.statuses == s.statuses && r.store.ratings == s.ratings
    ensures r.reply == Returned(1) <==> UpdateAccepted(s, q)
    ensures r.reply == Returned(0) || r.reply == Returned(1)
    ensures NameRejected(q.name) ==> r.store == s
    ensures r.store.films.next == s.films.next && r.store.films.rows.Keys == s.films.rows.Keys
    ensures forall k :: k in s.films.rows ==> r.store.films.rows[k].name == s.films.rows[k].name
    ensures forall k :: k in s.films.rows && k != id ==> r.store.films.rows[k] == s.films.rows[k]
    ensures r.reply != Returned(1) ==> r.store.films == s.films
    ensures r.reply == Returned(1) && id in s.films.rows ==> Carries(r.store, r.store.films.rows[id], q)
    ensures || r.store.genres == s.genres
            || (!NameRejected(q.name) && !Known(s.genres, q.genre) && r.store.genres == s.genres.Insert(q.genre))
  {
    if NameRejected(q.name) then Step(s, Returned(0))
    else
      var (s1, genreId) := ResolveGenre(s, q.genre);
      match Lookup(s1.statuses, q.status)
      case None => Step(s1, Returned(0))
      case Some(statusId) =>
        var films := Rewrite(s1.films, id, genreId, statusId, StoredRating(q.rating), q.description);
        Step(s1.(films := films), Returned(1))
  }

  /** `update_data(film_id, name, genre, status, rating, description)`. */
  function UpdateFilm(s: Store, id: int, name: string, genre: string, status: string, rating: string, description: string): (r: Step)
    ensures Blank(name) ==> r == Step(s, Returned(0))
    ensures forall k :: k in s.films.rows ==> k in r.store.films.rows && r.store.films.rows[k].name == s.films.rows[k].name
    ensures r.store.statuses == s.statuses
  {
    var q := Normalise(name, genre, status, rating, description);
    assert Blank(name) ==> NameRejected(q.name);
    UpdateRequest(s, id, q)
  }

  /** `del_film(film_id)`: every row with that id goes (there is at most
      one), nothing else changes, the counter does not go back, and the
      method returns 0 whether or not a row matched. */
  function DeleteFilm(s: Store, id: int): (r: Step)
    ensures r.reply == Returned(0)
    ensures r.store == s.(films := r.store.films)
    ensures r.store.films.rows.Keys == s.films.rows.Keys - {id}
    ensures forall k :: k in r.store.films.rows ==> r.store.films.rows[k] == s.films.rows[k]
    ensures r.store.films.next == s.films.next
  {
    Step(s.(films := s.films.(rows := s.films.rows - {id})), Returned(0))
  }
}

=== FILE: tables.dfy ===
/** An SQLite table whose key is `INTEGER PRIMARY KEY AUTOINCREMENT`:
    a map from row id to row plus the table's sequence counter. Ids start
    at 1 and are never reused, even after the row that held one is deleted. */
module Tables {

  datatype Option<T> = None | Some(value: T)

  datatype Table<T> = Table(rows: map<int, T>, next: int) {

    /** Every row id was handed out by the counter. */
    predicate Valid() {
      next >= 1 && forall k :: k in rows ==> 1 <= k < next
    }

    /** `INSERT`: the new row gets the counter's id; no existing row moves. */
    function Insert(row: T): (r: Table<T>)
      ensures next in r.rows && r.rows[next] == row
      ensures forall k :: k in r.rows <==> k in rows || k == next
      ensures forall k :: k in rows && k != next ==> r.rows[k] == rows[k]
      ensures r.next == next + 1
      ensures Valid() ==> r.Valid() && next !in rows && |r.rows| == |rows| + 1
    {
      Table(rows[next := row], next + 1)
    }

    /** One `INSERT` per element of `seeds`, in order. */
    function InsertAll(seeds: seq<T>): (r: Table<T>)
      ensures r.next == next + |seeds|
    {
      InsertFirst(seeds, |seeds|)
    }

    /** One `INSERT` for each of the first `n` elements of `seeds`, in
        order: those of the first `n - 1`, then the `n`-th. */
    function InsertFirst(seeds: seq<T>, n: nat): (r: Table<T>)
      requires n <= |seeds|
      ensures r.next == next + n
    {
      if n == 0 then this else InsertFirst(seeds, n - 1).Insert(seeds[n - 1])
    }

    /** After `InsertAll`, the i-th seed sits at id `next + i`, every row
        already present outside that range stays, and nothing else is there. */
    lemma InsertAllRows(seeds: seq<T>)
      ensures var r := InsertAll(seeds);
        && (forall k :: k in r.rows <==> k in rows || next <= k < next + |seeds|)
        && (forall i :: 0 <= i < |seeds| ==> r.rows[next + i] == seeds[i])
        && (forall k :: k in rows && !(next <= k < next + |seeds|) ==> r.rows[k] == rows[k])
        && (Valid() ==> r.Valid())
    {
      InsertFirstRows(seeds, |seeds|);
    }

    /** `InsertAllRows` for the first `n` seeds, by induction on `n`. */
    lemma {:induction false} InsertFirstRows(seeds: seq<T>, n: nat)
      requires n <= |seeds|
      ensures var r := InsertFirst(seeds, n);
        && (forall k :: k in r.rows <==> k in rows || next <= k < next + n)
        && (forall i :: 0 <= i < n ==> r.rows[next + i] == seeds[i])
        && (forall k :: k in rows && !(next <= k < next + n) ==> r.rows[k] == rows[k])
        && (Valid() ==> r.Valid())
    {
      if n > 0 {
        InsertFirstRows(seeds, n - 1);
        var t := InsertFirst(seeds, n - 1);
        var r := t.Insert(seeds[n - 1]);
        forall i | 0 <= i < n
          ensures r.rows[next + i] == seeds[i]
        {
          if i < n - 1 {
            assert next + i in t.rows && next + i != t.next;
          }
        }
      }
    }
  }

  /** A table with no rows whose counter has never moved. */
  function EmptyTable<T>(): (r: Table<T>)
    ensures r.Valid() && |r.rows| == 0 && r.next == 1
  {
    Table(map[], 1)
  }

  /** A non-empty set has a member. */
  lemma HasMember(xs: set<int>)
    requires xs != {}
    ensures exists x :: x in xs
  {
    if forall x :: x !in xs {
      assert false;
    }
  }

  /** A non-empty finite set of integers has a least element. */
  lemma {:induction false} LeastExists(xs: set<int>)
    requires xs != {}
    ensures exists m :: m in xs && forall y :: y in xs ==> m <= y
    decreases |xs|
  {
    HasMember(xs);
    var x :| x in xs;
    var rest := xs - {x};
    var least := x;
    if rest != {} {
      LeastExists(rest);
      var m :| m in rest && forall y :: y in rest ==> m <= y;
      least := if x < m then x else m;
    }
    forall y | y in xs
      ensures least <= y
    {
      if y != x {
        assert y in rest;
      }
    }
    assert least in xs;
  }

  /** The least element of a non-empty set of ids: the row an SQLite table
      scan meets first. */
  function Least(xs: set<int>): (m: int)
    requires xs != {}
    ensures m in xs && forall y :: y in xs ==> m <= y
  {
    LeastExists(xs);
    var m :| m in xs && forall y :: y in xs ==> m <= y; m
  }
}

=== FILE: text.dfy ===
/** Text normalisation used by the film store: Python's `str.strip()`,
    Python's `str.lower()` and SQLite's `LOWER()`.

    Python lower-cases every cased letter; SQLite's built-in `LOWER()` folds
    ASCII letters only. The two are kept apart because the store applies the
    first to genres before it compares anything through the second. */
module Text {

  /** Python's `str.isspace()`: the characters `str.strip()` removes. */
  predicate IsSpace(c: char) {
    || ('\U{0009}' <= c <= '\U{000D}')
    || ('\U{001C}' <= c <= '\U{0020}')
    || c == '\U{0085}' || c == '\U{00A0}' || c == '\U{1680}'
    || ('\U{2000}' <= c <= '\U{200A}')
    || c == '\U{2028}' || c == '\U{2029}' || c == '\U{202F}'
    || c == '\U{205F}' || c == '\U{3000}'
  }

  /** Every character of `s` is white space (vacuously so for ""). */
  predicate Blank(s: string) {
    forall i :: 0 <= i < |s| ==> IsSpace(s[i])
  }

  /** Two blank strings make a blank string. */
  lemma BlankConcat(a: string, b: string)
    requires Blank(a) && Blank(b)
    ensures Blank(a + b)
  {
    forall i | 0 <= i < |a + b|
      ensures IsSpace((a + b)[i])
    {
      if i < |a| {
        assert (a + b)[i] == a[i];
      } else {
        assert (a + b)[i] == b[i - |a|];
      }
    }
  }

  /** A blank prefix of the tail, behind a leading space, is a blank
      prefix of the whole. */
  lemma BlankPrefixStep(s: string, n: int)
    requires 1 <= n <= |s| && IsSpace(s[0]) && Blank(s[1..][..n - 1])
    ensures Blank(s[..n])
  {
    forall i | 0 <= i < n
      ensures IsSpace(s[..n][i])
    {
      if i > 0 {
        assert s[..n][i] == s[1..][..n - 1][i - 1];
      }
    }
  }

  /** `s.lstrip()` */
  function TrimStart(s: string): (r: string)
    ensures |r| <= |s| && r == s[|s| - |r|..]
    ensures r == [] || !IsSpace(r[0])
  {
    if |s| > 0 && IsSpace(s[0]) then TrimStart(s[1..]) else s
  }

  /** What `TrimStart` cut off is white space. */
  lemma {:induction false} TrimStartBlank(s: string)
    ensures Blank(s[..|s| - |TrimStart(s)|])
  {
    if |s| > 0 && IsSpace(s[0]) {
      TrimStartBlank(s[1..]);
      BlankPrefixStep(s, |s| - |TrimStart(s)|);
    }
  }

  /** `s.rstrip()` */
  function TrimEnd(s: string): (r: string)
    ensures |r| <= |s| && r == s[..|r|]
    ensures Blank(s[|r|..])
    ensures r == [] || !IsSpace(r[|r| - 1])
  {
    if |s| > 0 && IsSpace(s[|s| - 1]) then
      var init := s[..|s| - 1];
      var r := TrimEnd(init);
      assert s[|r|..] == init[|r|..] + [s[|s| - 1]];
      BlankConcat(init[|r|..], [s[|s| - 1]]);
      assert r == s[..|r|];
      r
    else
      s
  }

  /** `s.strip()`: the result is a slice of `s`, only white space was cut
      off either end, and what is left neither starts nor ends with white
      space. It is empty exactly when `s` is blank. */
  function Trim(s: string): (r: string)
    ensures exists a, b :: 0 <= a <= b <= |s| && r == s[a..b] && Blank(s[..a]) && Blank(s[b..])
    ensures r == [] || (!IsSpace(r[0]) && !IsSpace(r[|r| - 1]))
    ensures r == [] <==> Blank(s)
  {
    var t := TrimStart(s);
    var r := TrimEnd(t);
    TrimStartBlank(s);
    StripFacts(s, t, r);
    r
  }

  /** What the two halves of `strip()` promise, put together: if `t` is `s`
      without a blank prefix and `r` is `t` without a blank suffix, then `r`
      is a slice of `s` between blank ends, and is empty exactly when `s`
      is blank. */
  lemma StripFacts(s: string, t: string, r: string)
    requires |t| <= |s| && t == s[|s| - |t|..] && Blank(s[..|s| - |t|]) && (t == [] || !IsSpace(t[0]))
    requires |r| <= |t| && r == t[..|r|] && Blank(t[|r|..]) && (r == [] || !IsSpace(r[|r| - 1]))
    ensures exists a, b :: 0 <= a <= b <= |s| && r == s[a..b] && Blank(s[..a]) && Blank(s[b..])
    ensures r == [] || (!IsSpace(r[0]) && !IsSpace(r[|r| - 1]))
    ensures r == [] <==> Blank(s)
  {
    var a := |s| - |t|;
    var b := a + |r|;
    SuffixThenPrefix(s, t, r);
    BlankBothEnds(s, a, b);
    if r != [] {
      assert r[0] == t[0];
    }
    assert 0 <= a <= b <= |s| && r == s[a..b] && Blank(s[..a]) && Blank(s[b..]);
  }

  /** A prefix `r` of a suffix `t` of `s` is the slice of `s` between the
      two cuts, and blank cut-off parts stay blank when read in `s`. */
  lemma SuffixThenPrefix(s: string, t: string, r: string)
    requires |t| <= |s| && t == s[|s| - |t|..] && Blank(s[..|s| - |t|])
    requires |r| <= |t| && r == t[..|r|] && Blank(t[|r|..])
    ensures var a := |s| - |t|;
      var b := a + |r|;
      r == s[a..b] && Blank(s[..a]) && Blank(s[b..])
  {
    var a := |s| - |t|;
    var b := a + |r|;
    assert s[b..] == t[|r|..];
  }

  /** A string whose two ends are blank is blank when the middle is empty;
      and a blank string has blank ends and a blank middle. */
  lemma BlankBothEnds(s: string, a: int, b: int)
    requires 0 <= a <= b <= |s|
    ensures a == b && Blank(s[..a]) && Blank(s[b..]) ==> Blank(s)
    ensures Blank(s) ==> Blank(s[a..b])
  {
    if a == b && Blank(s[..a]) && Blank(s[b..]) {
      assert s == s[..a] + s[b..];
      BlankConcat(s[..a], s[b..]);
    }
    if Blank(s) {
      forall i | 0 <= i < b - a
        ensures IsSpace(s[a..b][i])
      {
        assert s[a..b][i] == s[a + i];
      }
    }
  }

  /** Stripping twice is stripping once. */
  lemma {:induction false} TrimIdempotent(s: string)
    ensures Trim(Trim(s)) == Trim(s)
  {
    var t := Trim(s);
    if t != [] {
      assert TrimStart(t) == t;
      assert TrimEnd(t) == t;
    }
  }

  /** A stripped string is never a single space: the `or name == " "`
      half of the blank-name guard can never fire. */
  lemma {:induction false} TrimNeverSingleSpace(s: string)
    ensures Trim(s) != " "
  {
  }

  /** `s[a..b]` lies between two blank ends of `s`. */
  predicate StripCut(s: string, a: int, b: int) {
    0 <= a <= b <= |s| && Blank(s[..a]) && Blank(s[b..])
  }

  /** `r` is what `strip()` leaves of `s`: a slice of `s` between blank
      ends that itself neither starts nor ends with white space. This says
      what stripping means without saying how it is done. */
  ghost predicate StripOf(r: string, s: string) {
    && (exists a, b :: StripCut(s, a, b) && r == s[a..b])
    && (r == [] || (!IsSpace(r[0]) && !IsSpace(r[|r| - 1])))
  }

  /** A character inside a blank prefix is white space. */
  lemma InBlankPrefix(s: string, n: int, i: int)
    requires 0 <= n <= |s| && Blank(s[..n])
    ensures 0 <= i < n ==> IsSpace(s[i])
  {
    if 0 <= i < n {
      assert s[..n][i] == s[i];
    }
  }

  /** A character inside a blank suffix is white space. */
  lemma InBlankSuffix(s: string, n: int, i: int)
    requires 0 <= n <= |s| && Blank(s[n..])
    ensures n <= i < |s| ==> IsSpace(s[i])
  {
    if n <= i < |s| {
      assert s[n..][i - n] == s[i];
    }
  }

  /** Whatever `strip()` leaves is empty exactly when the argument is blank. */
  lemma StripOfBlank(r: string, s: string)
    requires StripOf(r, s)
    ensures r == [] <==> Blank(s)
  {
    var a, b :| StripCut(s, a, b) && r == s[a..b];
    BlankBothEnds(s, a, b);
    if r != [] {
      assert r[0] == s[a];
    }
  }

  /** Two cuts between blank ends that both start at a non-space
      character start at the same place. */
  lemma SameStartCut(s: string, a1: int, b1: int, a2: int, b2: int)
    requires StripCut(s, a1, b1) && StripCut(s, a2, b2) && a1 < b1 && a2 < b2
    requires !IsSpace(s[a1]) && !IsSpace(s[a2])
    ensures a1 == a2
  {
    InBlankPrefix(s, a2, a1);
    InBlankPrefix(s, a1, a2);
  }

  /** Two cuts between blank ends that both end at a non-space character
      end at the same place. */
  lemma SameEndCut(s: string, a1: int, b1: int, a2: int, b2: int)
    requires StripCut(s, a1, b1) && StripCut(s, a2, b2) && a1 < b1 && a2 < b2
    requires !IsSpace(s[b1 - 1]) && !IsSpace(s[b2 - 1])
    ensures b1 == b2
  {
    InBlankSuffix(s, b1, b2 - 1);
    InBlankSuffix(s, b2, b1 - 1);
  }

  /** The ends of a non-empty slice are the characters at its cuts. */
  lemma CutEnds(s: string, r: string, a: int, b: int)
    requires StripCut(s, a, b) && r == s[a..b] && r != []
    requires !IsSpace(r[0]) && !IsSpace(r[|r| - 1])
    ensures a < b && !IsSpace(s[a]) && !IsSpace(s[b - 1])
  {
    assert r[0] == s[a] && r[|r| - 1] == s[b - 1];
  }

  /** There is only one thing `strip()` can leave: the first and last
      non-space characters fix both cuts. */
  lemma StripOfUnique(s: string, r1: string, r2: string)
    requires StripOf(r1, s) && StripOf(r2, s)
    ensures r1 == r2
  {
    StripOfBlank(r1, s);
    StripOfBlank(r2, s);
    if r1 != [] && r2 != [] {
      var a1, b1 :| StripCut(s, a1, b1) && r1 == s[a1..b1];
      var a2, b2 :| StripCut(s, a2, b2) && r2 == s[a2..b2];
      CutEnds(s, r1, a1, b1);
      CutEnds(s, r2, a2, b2);
      SameStartCut(s, a1, b1, a2, b2);
      SameEndCut(s, a1, b1, a2, b2);
    }
  }

  /** `Trim` is `strip()`: its result is the one string `StripOf` allows. */
  lemma StripOfIsTrim(r: string, s: string)
    ensures StripOf(r, s) <==> r == Trim(s)
  {
    var t := Trim(s);
    var a, b :| 0 <= a <= b <= |s| && t == s[a..b] && Blank(s[..a]) && Blank(s[b..]);
    assert StripCut(s, a, b);
    assert StripOf(t, s);
    if StripOf(r, s) {
      StripOfUnique(s, r, t);
    }
  }

  /** SQLite's `LOWER()` on one character: ASCII letters only. */
  function SqlLowerChar(c: char): char {
    if 'A' <= c <= 'Z' then (c as int + 32) as char else c
  }

  /** SQLite's `LOWER()`: each ASCII capital becomes its small letter, and
      every other character, Cyrillic included, is kept. */
  function SqlLower(s: string): (r: string)
    ensures |r| == |s| && forall i :: 0 <= i < |s| ==> r[i] == SqlLowerChar(s[i])
    ensures forall i :: 0 <= i < |s| && 'A' <= s[i] <= 'Z' ==> r[i] == (s[i] as int + 32) as char
    ensures forall i :: 0 <= i < |s| && !('A' <= s[i] <= 'Z') ==> r[i] == s[i]
    ensures forall i :: 0 <= i < |r| ==> !('A' <= r[i] <= 'Z')
  {
    if s == [] then [] else [SqlLowerChar(s[0])] + SqlLower(s[1..])
  }

  /** Two characters that are equal, or are the capital and the small form
      of one ASCII letter. */
  predicate SameIgnoringAsciiCase(c: char, d: char) {
    || c == d
    || ('A' <= c <= 'Z' && d as int == c as int + 32)
    || ('A' <= d <= 'Z' && c as int == d as int + 32)
  }

  /** `a` and `b` differ at most in the case of ASCII letters. */
  predicate AsciiCaseVariant(a: string, b: string) {
    |a| == |b| && forall i :: 0 <= i < |a| ==> SameIgnoringAsciiCase(a[i], b[i])
  }

  /** One character at a time: `LOWER()` maps two characters to the same
      one exactly when they differ at most in ASCII case. */
  lemma SqlLowerCharMatch(c: char, d: char)
    ensures SqlLowerChar(c) == SqlLowerChar(d) <==> SameIgnoringAsciiCase(c, d)
  {
  }

  /** `LOWER(a) = LOWER(b)` holds exactly when `a` and `b` differ at most in
      the case of ASCII letters: "Dune" matches "DUNE", "В планах" does not
      match "в планах". */
  lemma SqlLowerMatchIsAsciiCaseVariant(a: string, b: string)
    ensures SqlLower(a) == SqlLower(b) <==> AsciiCaseVariant(a, b)
  {
    var la, lb := SqlLower(a), SqlLower(b);
    if la == lb {
      forall i | 0 <= i < |a|
        ensures SameIgnoringAsciiCase(a[i], b[i])
      {
        assert la[i] == SqlLowerChar(a[i]) && lb[i] == SqlLowerChar(b[i]);
        SqlLowerCharMatch(a[i], b[i]);
      }
    }
    if AsciiCaseVariant(a, b) {
      forall i | 0 <= i < |a|
        ensures la[i] == lb[i]
      {
        assert la[i] == SqlLowerChar(a[i]) && lb[i] == SqlLowerChar(b[i]);
        SqlLowerCharMatch(a[i], b[i]);
      }
    }
  }

  /** The capitals Python's `lower()` changes, in the model: ASCII and the
      basic Cyrillic block U+0400..U+042F. */
  predicate IsUpper(c: char) {
    ('A' <= c <= 'Z') || ('\U{0400}' <= c <= '\U{042F}')
  }

  /** Python's `str.lower()` on one character. */
  function PyLowerChar(c: char): char {
    if 'A' <= c <= 'Z' then (c as int + 32) as char
    else if '\U{0410}' <= c <= '\U{042F}' then (c as int + 32) as char
    else if '\U{0400}' <= c <= '\U{040F}' then (c as int + 80) as char
    else c
  }

  /** Python's `str.lower()`: A-Z and А-Я move up by 32 code points, Ѐ-Џ by
      80, every other character is kept, and no capital is left. */
  function PyLower(s: string): (r: string)
    ensures |r| == |s| && forall i :: 0 <= i < |s| ==> r[i] == PyLowerChar(s[i])
    ensures forall i :: 0 <= i < |s| && ('A' <= s[i] <= 'Z' || '\U{0410}' <= s[i] <= '\U{042F}') ==>
              r[i] == (s[i] as int + 32) as char
    ensures forall i :: 0 <= i < |s| && '\U{0400}' <= s[i] <= '\U{040F}' ==> r[i] == (s[i] as int + 80) as char
    ensures forall i :: 0 <= i < |s| && !IsUpper(s[i]) ==> r[i] == s[i]
    ensures forall i :: 0 <= i < |r| ==> !IsUpper(r[i])
  {
    if s == [] then [] else [PyLowerChar(s[0])] + PyLower(s[1..])
  }

  /** A string with no capital is its own Python lower case. */
  lemma PyLowerOfLower(s: string)
    requires forall i :: 0 <= i < |s| ==> !IsUpper(s[i])
    ensures PyLower(s) == s
  {
    assert forall i :: 0 <= i < |s| ==> PyLower(s)[i] == s[i];
  }

  /** Lower-casing twice is lower-casing once (Python flavour). */
  lemma {:induction false} PyLowerIdempotent(s: string)
    ensures PyLower(PyLower(s)) == PyLower(s)
  {
    if s != [] {
      PyLowerIdempotent(s[1..]);
      assert PyLower(s)[1..] == PyLower(s[1..]);
    }
  }

  /** A string Python has lower-cased has no letter left that SQLite's
      `LOWER()` would change. */
  lemma {:induction false} SqlLowerOfPyLower(s: string)
    ensures SqlLower(PyLower(s)) == PyLower(s)
  {
    if s != [] {
      SqlLowerOfPyLower(s[1..]);
      assert PyLower(s)[1..] == PyLower(s[1..]);
    }
  }

  /** On strings that are their own Python lower case, SQLite's
      case-insensitive comparison is plain equality. */
  lemma SqlLowerMatchOfCanonical(a: string, b: string)
    requires PyLower(a) == a && PyLower(b) == b
    ensures SqlLower(a) == SqlLower(b) <==> a == b
  {
    SqlLowerOfPyLower(a);
    SqlLowerOfPyLower(b);
  }
}
